=== FILE: README.md ===
# Quiz session model

A Dafny model of the session logic of a browser multiple-choice quiz. The
application reads questions from a CSV file. It builds a run from them in one
of three ways: random, by an id interval, or from the user's review list. It
then shows one question at a time under a countdown and ends on a scored
results page. On that page each question can be flagged for later review.

Everything is modelled as pure functions over immutable datatypes:

- `Seqs` holds the order-keeping filter `Keep`, which models `Array.prototype.filter`. It also holds
  gathering by an index permutation and a pigeonhole argument. Together these show that a
  shuffle neither adds nor loses questions.
- `Questions` holds the parsed row `Question`, the answer letters `Choice`, the pool
  filter, and the `Config` record that the start screen submits.
- `Selection` is the session builder: random pick, id interval and review list.
- `ReviewList` holds the checkbox toggle and the auto-save append.
- `Scoring` holds the correct and wrong counts and the percentage.
- `Session` holds the application state `App`, the rendered view, every transition
  (start, answer, back, forward or conclude, tick, flag, return home), and the
  invariant `Wf` that all reachable states keep.

Inputs that come from outside are parameters:

- The rows produced by the CSV parser, with `Numero` already parsed to an int. The raw text is kept for the non-empty test.
  `Corretta` is optional (`None`), because the pool filter does not test it and a short row or a file
  without that column leaves it undefined.
- The outcome of the random shuffle, given as a permutation of pool positions.
- The review list loaded from storage.

In these places the model follows the code, which is easy to misread:

- Interval mode keeps file order, not ascending id order (`Selection.InIntervalKeepsPoolOrder`).
- Review mode ignores the configured count and returns every listed pool question.
- Auto-save appends the id even if it is already listed (`ReviewList.AutoSaveCountsCopies`).
- The position never moves past the last question. "Concludi" sets the results flag instead.
- A row without a `Corretta` field stays in the pool. An unanswered position of such a row scores as
  correct, because `undefined === undefined` (`Scoring.MissingKeyScoresUnanswered`).
- The countdown is not cancelled when a run is concluded early or when the user goes back
  to the start screen. It only stops at zero. `Session.Restart` keeps the clock, and
  `Session.Tick` does not depend on the view.

## Model

| member | source | states |
|---|---|---|
| Questions.Pool | src/App.jsx:42 | a row is in the pool iff its number, prompt and three options are non-empty; each usable row keeps its multiplicity and unusable ones are gone |
| Questions.PoolKeepsFileOrder | src/App.jsx:42 | the pool of a concatenated file is the concatenation of the pools, so rows keep file order |
| Questions.PoolOfCompleteRows | src/App.jsx:42 | a file with only usable rows is its own pool |
| Seqs.Keep | src/App.jsx:42 | the filter keeps exactly the elements passing the test, each as often as in the input, and never grows |
| Seqs.KeepConcat | src/App.jsx:48-54 | filtering distributes over concatenation, so filters preserve order |
| Seqs.GatherPermutation | src/App.jsx:5-7 | reordering by a permutation of positions gives the same multiset of elements |
| Selection.RandomPick | src/App.jsx:5-7 | random mode returns min(count, pool size) questions, each taken from its own distinct pool position, and the whole pool when count is at least the pool size |
| Selection.InInterval | src/App.jsx:48-51 | interval mode keeps exactly the pool questions with start <= id <= end, with their multiplicity, and nothing when start > end |
| Selection.InIntervalKeepsPoolOrder | src/App.jsx:48-51 | interval mode keeps pool order rather than sorting by id |
| Selection.WideningKeepsQuestions | src/App.jsx:48-51 | widening the bounds never drops a question: the narrow run is the wide run filtered by the narrow bounds |
| Selection.Flagged | src/App.jsx:54 | review mode keeps exactly the pool questions whose id is listed, once per pool occurrence however often the id is listed; its ids are the intersection of pool ids and listed ids |
| Selection.FlaggedKeepsPoolOrder | src/App.jsx:54 | review mode keeps pool order |
| Selection.FlaggedDependsOnMembership | src/App.jsx:54 | two review lists with the same members select the same run |
| Selection.Select | src/App.jsx:43-55 | the run is the configured mode's selection (random pick, interval filter or review filter), so it inherits that mode's order; it is a sub-multiset of the pool; random mode takes min(count, pool size) questions; interval and review modes keep exactly the matching pool questions, each with its pool multiplicity |
| Session.Start | src/App.jsx:38-63 | the run's questions are exactly the configured mode's selection from the pool; starting clears the answers, sets the position to 0, clears the results flag, sets the clock to timer * 60, keeps the review list, and goes to results at once when nothing was selected |
| Session.EmptyRunFinishes | src/App.jsx:95 | whenever the chosen mode selects nothing (empty pool, empty interval, no listed question), the results show immediately |
| Session.Answer | src/App.jsx:66-78 | the letter is recorded at the current position and all other positions are unchanged; the review list gains exactly the question's id iff auto-save is on and the letter is wrong |
| Session.AnswerTwice | src/App.jsx:66-78 | re-answering with the same letter leaves the answers as they were, and everything as it was unless auto-save is on and the letter is wrong |
| ReviewList.AutoSave | src/App.jsx:71-75 | auto-save keeps the old list as a prefix and appends the id iff enabled and wrong |
| ReviewList.AutoSaveCountsCopies | src/App.jsx:72 | the append does not deduplicate: a wrong answer adds one more copy of the id |
| ReviewList.AutoSavedIsReviewed | src/App.jsx:54 | a question auto-saved by a wrong answer is selected by the next review run |
| ReviewList.Toggle | src/App.jsx:80-89 | toggling flips membership of the id and leaves every other id's membership (and multiplicity) unchanged: a set XOR |
| ReviewList.ToggleTwice | src/App.jsx:80-89 | toggling twice restores membership, and restores the very list when the id was absent |
| ReviewList.UntickedIsNotReviewed | src/App.jsx:83 | unticking removes every copy, so the question leaves the next review run |
| Session.Tick | src/App.jsx:22-36 | a tick only happens while the clock is above zero, strictly decreases it without going negative, maps t > 1 to t - 1 and t <= 1 to 0 with the results shown |
| Session.Countdown | src/App.jsx:22-36 | from t seconds, k < t ticks leave t - k seconds and change nothing else in the run; t or more ticks leave 0 with results shown; the review list, settings and auto-save switch never change |
| Session.Expired | src/App.jsx:23 | at zero the clock no longer ticks |
| Session.TenMinuteRun | src/App.jsx:62 | a ten-minute run, the shortest the start screen offers, has one second left and no forced results after 599 ticks, shows results after 600, and a further tick changes nothing |
| Session.Back | src/App.jsx:175 | "Indietro" does nothing on the first question and otherwise moves back one position, staying on the question view |
| Session.Forward | src/App.jsx:178-185 | the right-hand button leads to the results exactly on the last question and otherwise moves forward one position; the answers, clock, review list, settings and auto-save switch are unchanged |
| Session.Restart | src/App.jsx:132 | returning home shows the start screen and keeps the review list and the run state |
| Session.Initial | src/App.jsx:10-20 | the loaded application is on the start screen with auto-save off, the stored review list, and an empty run at position 0 with the clock at 0 and the results flag off, so no countdown runs before the first start |
| Session.Step | src/App.jsx:91-95 | every offered action keeps the invariant; only answers and flags change the review list, and a flag is a set XOR on it |
| Session.Run | src/App.jsx:91-95 | any sequence of actions from a well-formed state keeps the invariant |
| Session.Reachable | src/App.jsx:138 | in every reachable state the question view has a valid question to show |
| Scoring.CorrectUpToCounts | src/App.jsx:100 | the reduce counts exactly the positions where `selectedAnswers[i] === Corretta` (the same letter, or both missing), and the rest are exactly the wrong ones |
| Scoring.HitMeansRightLetter | src/App.jsx:100 | on a row with a `Corretta` field, a position counts as correct iff it was answered with that letter |
| Scoring.MissingKeyScoresUnanswered | src/App.jsx:100 | on a row without a `Corretta` field, a position counts as correct iff it was left unanswered |
| Scoring.Percentage | src/App.jsx:102 | 0 for an empty run, at most 100, 100 when all are right, 0 when none is, and otherwise 100 * correct / total rounded half up |
| Scoring.Summarize | src/App.jsx:99-102 | correct counts the positions where the strict comparison holds, wrong = total - correct counts the others, and the empty run scores 0, 0, 0 |
| Scoring.UnansweredIsWrong | src/App.jsx:100-101 | an unanswered position of a row with a `Corretta` field counts as wrong |
| Scoring.AllRightScoresFull | src/App.jsx:99-102 | answering every question right scores all correct, none wrong, 100% |
| Scoring.HalfRight | src/App.jsx:99-102 | two questions with one right answer and one wrong answer score 1 correct, 1 wrong, 50% |

## Left out

- Fetching the question file and parsing the CSV (src/App.jsx:39-42) are network I/O and a third-party parser. The parsed rows are an input.
- `parseInt` of `Numero`: ids arrive as integers, and each row has one `id`. A non-numeric `Numero`, which parses to NaN, is not modelled.
- ReviewList.AutoSavedIsReviewed: assumes the two parses of `Numero` agree. Auto-save parses without a radix (src/App.jsx:72), while the interval, review and checkbox code passes radix 10 (src/App.jsx:49, 54, 125). A `0x`-prefixed `Numero` would therefore be saved under a different id than review mode looks up. The single `id` field cannot express that.
- Reading and writing the review list in local storage as JSON (src/App.jsx:15-18, 73, 88). The list is a plain `seq<int>`, and the stored value is taken as given. In the code only a missing or empty entry becomes `[]`. Unparsable text makes `JSON.parse` throw while the state is initialised (src/App.jsx:17). Valid JSON that is not an array becomes the review list as it is. For `null` or `5`, `reviewList.includes` then throws (src/App.jsx:54, 125). A JSON string instead matches substrings. None of these failure paths is modelled.
- `setInterval`, `clearInterval` and effect scheduling (src/App.jsx:22-36). One tick is one discrete transition.
- `Math.random` and the sort inside `shuffle` (src/App.jsx:5-7). The shuffle's outcome is an arbitrary permutation supplied by the caller. No claim of uniformity is made.
- Scoring.Percentage: uses exact rational rounding, which only approximates `Math.round` on the floating-point quotient. For example, for 29 of 200 the float product is 14.499999999999998 and rounds to 14, while exact rounding gives 15.
- All rendering, CSS classes, key handlers and the per-question results lines (src/App.jsx:103-189).
- The start screen form (src/components/StartScreen.jsx). Its option ranges (count 10..880 and timer 10..100, both in steps of 10) appear as `Questions.ValidConfig`.

=== FILE: questions.dfy ===
/** Question records as parsed from the question file, the pool of usable
    questions, and the configuration the start screen submits. */
module Questions {
  import opened Wrappers
  import opened Seqs

  /** One of the three answer buttons. */
  datatype Choice = A | B | C {

    /** The letter as written in the `Corretta` column. */
    function Name(): string {
      match this
      case A => "A"
      case B => "B"
      case C => "C"
    }
  }

  /** A parsed row of the question file. `numero` is the raw `Numero` text and
      `id` its parsed integer value; `correct` is the raw `Corretta` text, or
      `None` when the row has no such field (a short row, or a file without
      that column), which the pool filter does not test. */
  datatype Question = Question(
    numero: string,
    id: int,
    prompt: string,
    a: string,
    b: string,
    c: string,
    correct: Option<string>)

  /** `letter === Corretta`; a letter never equals a missing `Corretta`. */
  predicate IsRight(q: Question, letter: Choice) {
    q.correct == Some(letter.Name())
  }

  /** A row is usable when its number, prompt and three options are non-empty. */
  predicate IsComplete(q: Question) {
    q.numero != [] && q.prompt != [] && q.a != [] && q.b != [] && q.c != []
  }

  /** The question pool: the usable rows, in file order. */
  function Pool(rows: seq<Question>): (pool: seq<Question>)
    ensures forall q :: q in pool <==> q in rows && IsComplete(q)
    ensures forall q :: multiset(pool)[q] == if IsComplete(q) then multiset(rows)[q] else 0
  {
    Keep(rows, IsComplete)
  }

  /** The pool of a file is the pool of its first part followed by the pool
      of the rest: rows are never reordered. */
  lemma PoolKeepsFileOrder(first: seq<Question>, rest: seq<Question>)
    ensures Pool(first + rest) == Pool(first) + Pool(rest)
  {
    KeepConcat(first, rest, IsComplete);
  }

  /** A file of usable rows only is its own pool. */
  lemma PoolOfCompleteRows(rows: seq<Question>)
    requires forall q :: q in rows ==> IsComplete(q)
    ensures Pool(rows) == rows
  {
    KeepAll(rows, IsComplete);
  }

  datatype Mode = Random | Interval | Review

  /** The settings record the start screen submits; `timer` is in minutes. */
  datatype Config = Config(mode: Mode, count: int, start: int, end: int, timer: int)

  /** What the start screen can produce: a count among 10, 20, ..., 880 and a
      timer among 10, 20, ..., 100; the interval bounds are free integers. */
  predicate ValidConfig(config: Config) {
    && 10 <= config.count <= 880 && config.count % 10 == 0
    && 10 <= config.timer <= 100 && config.timer % 10 == 0
  }
}

=== FILE: review_list.dfy ===
/** The review list: the ids the user wants to revisit, kept as the plain
    list that is persisted (duplicates possible). */
module ReviewList {
  import opened Seqs
  import opened Questions
  import Selection

  /** The ids on the list, forgetting order and repetitions. */
  function Members(list: seq<int>): set<int> {
    set n | n in list
  }

  /** The test that drops every copy of `n`. */
  function Other(n: int): int -> bool {
    m => m != n
  }

  /** The results-screen checkbox: drop every copy of `n` when it is listed,
      append it otherwise. */
  function Toggle(list: seq<int>, n: int): (r: seq<int>)
    ensures n in r <==> n !in list
    ensures forall m :: m != n ==> (m in r <==> m in list)
    ensures Members(r) == if n in list then Members(list) - {n} else Members(list) + {n}
    ensures n !in list ==> |r| == |list| + 1 && r[..|list|] == list && r[|list|] == n
    ensures n in list ==> |r| < |list| && forall m :: m != n ==> multiset(r)[m] == multiset(list)[m]
  {
    if n in list then
      var r := Keep(list, Other(n));
      KeepShrinks(list, Other(n), n);
      r
    else list + [n]
  }

  /** Toggling twice restores membership; when `n` was not listed it restores
      the very list. */
  lemma ToggleTwice(list: seq<int>, n: int)
    ensures Members(Toggle(Toggle(list, n), n)) == Members(list)
    ensures n !in list ==> Toggle(Toggle(list, n), n) == list
  {
    if n !in list {
      KeepConcat(list, [n], Other(n));
      KeepAll(list, Other(n));
    }
  }

  /** The auto-save step of answering: when auto-save is on and the answer is
      wrong, the question's id is appended, even if already listed. */
  function AutoSave(list: seq<int>, enabled: bool, q: Question, letter: Choice): (r: seq<int>)
    ensures |r| == if enabled && !IsRight(q, letter) then |list| + 1 else |list|
    ensures r[..|list|] == list
    ensures |r| > |list| ==> r[|list|] == q.id
  {
    if enabled && !IsRight(q, letter) then list + [q.id] else list
  }

  /** Auto-save does not deduplicate: a wrong answer adds one more copy of the id. */
  lemma AutoSaveCountsCopies(list: seq<int>, q: Question, letter: Choice)
    requires !IsRight(q, letter)
    ensures multiset(AutoSave(list, true, q, letter))[q.id] == multiset(list)[q.id] + 1
  {
    assert AutoSave(list, true, q, letter) == list + [q.id];
  }

  /** A question saved by a wrong answer is picked by the next review run. */
  lemma AutoSavedIsReviewed(pool: seq<Question>, list: seq<int>, q: Question, letter: Choice)
    requires q in pool && !IsRight(q, letter)
    ensures q in Selection.Flagged(pool, AutoSave(list, true, q, letter))
  {
    var r := AutoSave(list, true, q, letter);
    assert r[|list|] == q.id;
  }

  /** Unticking a question removes it from the next review run entirely. */
  lemma UntickedIsNotReviewed(pool: seq<Question>, list: seq<int>, q: Question)
    requires q.id in list
    ensures q !in Selection.Flagged(pool, Toggle(list, q.id))
  {
  }
}

=== FILE: scoring.dfy ===
/** The results summary: how many positions were answered correctly, how many
    not, and the rounded percentage. */
module Scoring {
  import opened Wrappers
  import opened Questions

  /** What `selectedAnswers[i]` holds: the chosen letter, or nothing. */
  function Given(answers: map<int, Choice>, i: int): Option<string> {
    if i in answers then Some(answers[i].Name()) else None
  }

  /** Position `i` counts as correct when `selectedAnswers[i] === q.Corretta`:
      the chosen letter equals the `Corretta` text, or both are missing. */
  predicate Hit(qs: seq<Question>, answers: map<int, Choice>, i: int)
    requires 0 <= i < |qs|
  {
    Given(answers, i) == qs[i].correct
  }

  /** On a row that has a `Corretta` field, a position counts as correct
      exactly when it was answered with that letter. */
  lemma HitMeansRightLetter(qs: seq<Question>, answers: map<int, Choice>, i: int)
    requires 0 <= i < |qs| && qs[i].correct.Some?
    ensures Hit(qs, answers, i) <==> i in answers && IsRight(qs[i], answers[i])
  {
  }

  /** The positions below `n` counted as correct. */
  ghost function Hits(qs: seq<Question>, answers: map<int, Choice>, n: nat): set<int>
    requires n <= |qs|
  {
    set i | 0 <= i < n && Hit(qs, answers, i)
  }

  /** The positions below `n` counted as wrong, unanswered ones included. */
  ghost function Misses(qs: seq<Question>, answers: map<int, Choice>, n: nat): set<int>
    requires n <= |qs|
  {
    set i | 0 <= i < n && !Hit(qs, answers, i)
  }

  /** The running total of the `reduce` over the first `n` positions. */
  function CorrectUpTo(qs: seq<Question>, answers: map<int, Choice>, n: nat): (c: nat)
    requires n <= |qs|
    ensures c <= n
  {
    if n == 0 then 0
    else CorrectUpTo(qs, answers, n - 1) + (if Hit(qs, answers, n - 1) then 1 else 0)
  }

  /** Extending the range by position `n - 1` adds it to exactly one of the two sets. */
  lemma HitsStep(qs: seq<Question>, answers: map<int, Choice>, n: nat)
    requires 0 < n <= |qs|
    ensures Hit(qs, answers, n - 1) ==>
      Hits(qs, answers, n) == Hits(qs, answers, n - 1) + {n - 1} && Misses(qs, answers, n) == Misses(qs, answers, n - 1)
    ensures !Hit(qs, answers, n - 1) ==>
      Hits(qs, answers, n) == Hits(qs, answers, n - 1) && Misses(qs, answers, n) == Misses(qs, answers, n - 1) + {n - 1}
    ensures n - 1 !in Hits(qs, answers, n - 1) && n - 1 !in Misses(qs, answers, n - 1)
  {
  }

  /** The running total counts exactly the correct positions, and what it
      leaves out is exactly the wrong ones. */
  lemma {:induction false} CorrectUpToCounts(qs: seq<Question>, answers: map<int, Choice>, n: nat)
    requires n <= |qs|
    ensures CorrectUpTo(qs, answers, n) == |Hits(qs, answers, n)|
    ensures n - CorrectUpTo(qs, answers, n) == |Misses(qs, answers, n)|
  {
    if n > 0 {
      CorrectUpToCounts(qs, answers, n - 1);
      HitsStep(qs, answers, n);
    }
  }

  /** Cancelling a positive factor in a strict inequality. */
  lemma CancelFactor(d: int, a: int, b: int)
    requires d > 0 && d * a < d * b
    ensures a < b
  {
  }

  /** Euclidean division brackets the dividend between two multiples of the divisor. */
  lemma QuotientBracket(m: nat, d: nat)
    requires d > 0
    ensures d * (m / d) <= m < d * (m / d) + d
  {
  }

  /** The bounds of the rounded quotient `(200 * correct + total) / (2 * total)`. */
  lemma RoundHalfUp(correct: nat, total: nat, p: nat)
    requires correct <= total && 0 < total
    requires p == (200 * correct + total) / (2 * total)
    ensures 2 * total * p <= 200 * correct + total < 2 * total * (p + 1)
    ensures p <= 100
    ensures correct == 0 ==> p == 0
    ensures correct == total ==> p == 100
  {
    var d := 2 * total;
    var m := 200 * correct + total;
    QuotientBracket(m, d);
    assert d * (p + 1) == d * p + d;
    assert m < d * 101;
    CancelFactor(d, p, 101);
    if correct == 0 {
      CancelFactor(d, p, 1);
    }
    if correct == total {
      assert d * 100 == m - total;
      CancelFactor(d, 100, p + 1);
    }
  }

  /** `Math.round(correct / total * 100)` in exact arithmetic: round half up. */
  function Percentage(correct: nat, total: nat): (p: nat)
    requires correct <= total
    ensures p <= 100
    ensures total == 0 ==> p == 0
    ensures total > 0 ==> 2 * total * p <= 200 * correct + total < 2 * total * (p + 1)
    ensures correct == 0 ==> p == 0
    ensures 0 < correct == total ==> p == 100
  {
    if total > 0 then
      var p := (200 * correct + total) / (2 * total);
      RoundHalfUp(correct, total, p);
      p
    else 0
  }

  datatype Score = Score(correct: nat, wrong: nat, percentage: nat)

  /** The summary shown at the top of the results view. */
  function Summarize(qs: seq<Question>, answers: map<int, Choice>): (s: Score)
    ensures s.correct == |Hits(qs, answers, |qs|)|
    ensures s.wrong == |Misses(qs, answers, |qs|)|
    ensures s.correct + s.wrong == |qs|
    ensures s.percentage <= 100
    ensures |qs| == 0 ==> s == Score(0, 0, 0)
  {
    CorrectUpToCounts(qs, answers, |qs|);
    var correct := CorrectUpTo(qs, answers, |qs|);
    Score(correct, |qs| - correct, Percentage(correct, |qs|))
  }

  /** An unanswered position of a row with a `Corretta` field is counted as wrong. */
  lemma UnansweredIsWrong(qs: seq<Question>, answers: map<int, Choice>, i: int)
    requires 0 <= i < |qs| && i !in answers && qs[i].correct.Some?
    ensures i in Misses(qs, answers, |qs|)
  {
  }

  /** An unanswered position of a row without a `Corretta` field is counted as
      correct (`undefined === undefined`), and any answer there is wrong. */
  lemma MissingKeyScoresUnanswered(qs: seq<Question>, answers: map<int, Choice>, i: int)
    requires 0 <= i < |qs| && qs[i].correct.None?
    ensures i in Hits(qs, answers, |qs|) <==> i !in answers
  {
  }

  /** Answering every question with its correct letter scores 100%. */
  lemma AllRightScoresFull(qs: seq<Question>, answers: map<int, Choice>)
    requires |qs| > 0
    requires forall i :: 0 <= i < |qs| ==> i in answers && IsRight(qs[i], answers[i])
    ensures Summarize(qs, answers) == Score(|qs|, 0, 100)
  {
    assert Misses(qs, answers, |qs|) == {};
  }

  /** Two questions, one answered right and one wrong: one correct, one wrong, 50%. */
  lemma HalfRight()
    ensures
      var qs := [Question("1", 1, "q1", "x", "y", "z", Some("A")), Question("2", 2, "q2", "x", "y", "z", Some("B"))];
      Summarize(qs, map[0 := A, 1 := C]) == Score(1, 1, 50)
  {
    var qs := [Question("1", 1, "q1", "x", "y", "z", Some("A")), Question("2", 2, "q2", "x", "y", "z", Some("B"))];
    var answers := map[0 := A, 1 := C];
    assert Hit(qs, answers, 0) && !Hit(qs, answers, 1);
  }
}

=== FILE: selection.dfy ===
/** The session builder: the three ways a run picks its questions from the pool. */
module Selection {
  import opened Seqs
  import opened Questions

  function Min(x: int, y: int): int {
    if x <= y then x else y
  }

  /** How many elements `slice(0, count)` keeps of an array of length `len`:
      a negative end counts back from the end of the array. */
  function SliceEnd(len: nat, count: int): (e: nat)
    ensures e <= len
    ensures 0 <= count ==> e == Min(count, len)
  {
    if count < 0 then (if len + count > 0 then len + count else 0)
    else Min(count, len)
  }

  /** Random mode: the pool reordered by the permutation `perm` (the outcome of
      the random shuffle), then cut to the first `count` questions. */
  function RandomPick(pool: seq<Question>, perm: seq<nat>, count: int): (r: seq<Question>)
    requires IsPermutation(perm, |pool|)
    ensures 0 <= count ==> |r| == Min(count, |pool|)
    ensures |r| <= |pool| && forall i :: 0 <= i < |r| ==> r[i] == pool[perm[i]]
    ensures multiset(r) <= multiset(pool)
    ensures |pool| <= count ==> multiset(r) == multiset(pool)
  {
    var shuffled := Gather(pool, perm);
    GatherPermutation(pool, perm);
    var e := SliceEnd(|pool|, count);
    assert shuffled == shuffled[..e] + shuffled[e..];
    assert multiset(shuffled) == multiset(shuffled[..e]) + multiset(shuffled[e..]);
    shuffled[..e]
  }

  /** The test of interval mode. */
  function WithinBounds(lo: int, hi: int): Question -> bool {
    (q: Question) => lo <= q.id <= hi
  }

  /** Interval mode: the pool questions whose id lies in [lo, hi], in pool order. */
  function InInterval(pool: seq<Question>, lo: int, hi: int): (r: seq<Question>)
    ensures forall q :: q in r <==> q in pool && lo <= q.id <= hi
    ensures forall q :: multiset(r)[q] == if lo <= q.id <= hi then multiset(pool)[q] else 0
    ensures lo > hi ==> r == []
  {
    var r := Keep(pool, WithinBounds(lo, hi));
    assert lo > hi && |r| > 0 ==> r[0] in r;
    r
  }

  /** Interval selection of a concatenation is the concatenation of the
      selections: file order is kept, not id order. */
  lemma InIntervalKeepsPoolOrder(first: seq<Question>, rest: seq<Question>, lo: int, hi: int)
    ensures InInterval(first + rest, lo, hi) == InInterval(first, lo, hi) + InInterval(rest, lo, hi)
  {
    KeepConcat(first, rest, WithinBounds(lo, hi));
  }

  /** Widening the bounds never drops a question: the narrow selection is the
      wide selection filtered by the narrow bounds. */
  lemma WideningKeepsQuestions(pool: seq<Question>, lo: int, hi: int, lo': int, hi': int)
    requires lo' <= lo && hi <= hi'
    ensures Keep(InInterval(pool, lo', hi'), WithinBounds(lo, hi)) == InInterval(pool, lo, hi)
    ensures forall q :: q in InInterval(pool, lo, hi) ==> q in InInterval(pool, lo', hi')
    ensures |InInterval(pool, lo, hi)| <= |InInterval(pool, lo', hi')|
  {
    KeepKeep(pool, WithinBounds(lo', hi'), WithinBounds(lo, hi));
  }

  /** The test of review mode: `reviewList.includes(id)`. */
  function Listed(review: seq<int>): Question -> bool {
    (q: Question) => q.id in review
  }

  /** Review mode: the pool questions whose id is on the review list, in pool order. */
  function Flagged(pool: seq<Question>, review: seq<int>): (r: seq<Question>)
    ensures forall q :: q in r <==> q in pool && q.id in review
    ensures forall q :: multiset(r)[q] == if q.id in review then multiset(pool)[q] else 0
    ensures (set q | q in r :: q.id) == (set q | q in pool :: q.id) * (set n | n in review)
  {
    Keep(pool, Listed(review))
  }

  /** Review selection keeps pool order. */
  lemma FlaggedKeepsPoolOrder(first: seq<Question>, rest: seq<Question>, review: seq<int>)
    ensures Flagged(first + rest, review) == Flagged(first, review) + Flagged(rest, review)
  {
    KeepConcat(first, rest, Listed(review));
  }

  /** Review selection depends only on which ids are listed, not on their order
      or repetitions. */
  lemma FlaggedDependsOnMembership(pool: seq<Question>, review: seq<int>, review': seq<int>)
    requires forall n :: n in review <==> n in review'
    ensures Flagged(pool, review) == Flagged(pool, review')
  {
    KeepCongruent(pool, Listed(review), Listed(review'));
  }

  /** The questions of a run, as chosen by the configured mode. */
  function Select(config: Config, pool: seq<Question>, review: seq<int>, perm: seq<nat>): (r: seq<Question>)
    requires config.mode.Random? ==> IsPermutation(perm, |pool|)
    ensures multiset(r) <= multiset(pool)
    ensures |r| <= |pool|
    ensures config.mode.Random? && 0 <= config.count ==> |r| == Min(config.count, |pool|)
    ensures config.mode.Random? ==> r == RandomPick(pool, perm, config.count)
    ensures config.mode.Interval? ==> r == InInterval(pool, config.start, config.end)
    ensures config.mode.Review? ==> r == Flagged(pool, review)
    ensures config.mode.Interval? ==> forall q :: q in r <==> q in pool && config.start <= q.id <= config.end
    ensures config.mode.Interval? ==> forall q ::
              multiset(r)[q] == if config.start <= q.id <= config.end then multiset(pool)[q] else 0
    ensures config.mode.Review? ==> forall q :: q in r <==> q in pool && q.id in review
    ensures config.mode.Review? ==> forall q :: multiset(r)[q] == if q.id in review then multiset(pool)[q] else 0
  {
    var r := match config.mode
      case Random => RandomPick(pool, perm, config.count)
      case Interval => InInterval(pool, config.start, config.end)
      case Review => Flagged(pool, review);
    assert |r| == |multiset(r)| <= |multiset(pool)| == |pool|;
    r
  }
}

=== FILE: seqs.dfy ===
/** Sequence helpers shared by the pool filter, the session builder and the
    review list: an order-keeping filter and gathering by an index permutation. */
module Seqs {

  /** The elements of `s` that satisfy `p`, in their original order, as
      `Array.prototype.filter` computes them. */
  function Keep<T(!new)>(s: seq<T>, p: T -> bool): (r: seq<T>)
    ensures |r| <= |s|
    ensures forall x :: x in r <==> x in s && p(x)
    ensures forall x :: multiset(r)[x] == if p(x) then multiset(s)[x] else 0
  {
    if |s| == 0 then []
    else
      assert s == [s[0]] + s[1..];
      if p(s[0]) then [s[0]] + Keep(s[1..], p) else Keep(s[1..], p)
  }

  /** Filtering commutes with concatenation: `Keep` never reorders. */
  lemma {:induction false} KeepConcat<T(!new)>(a: seq<T>, b: seq<T>, p: T -> bool)
    ensures Keep(a + b, p) == Keep(a, p) + Keep(b, p)
  {
    if |a| > 0 {
      assert (a + b)[0] == a[0];
      assert (a + b)[1..] == a[1..] + b;
      KeepConcat(a[1..], b, p);
    } else {
      assert a + b == b;
    }
  }

  /** A filter whose test holds of every element changes nothing. */
  lemma {:induction false} KeepAll<T(!new)>(s: seq<T>, p: T -> bool)
    requires forall x :: x in s ==> p(x)
    ensures Keep(s, p) == s
  {
    if |s| > 0 {
      assert s[0] in s;
      assert forall x :: x in s[1..] ==> x in s;
      KeepAll(s[1..], p);
    }
  }

  /** A filter that rejects some element of `s` returns fewer elements. */
  lemma {:induction false} KeepShrinks<T(!new)>(s: seq<T>, p: T -> bool, x: T)
    requires x in s && !p(x)
    ensures |Keep(s, p)| < |s|
  {
    if s[0] != x {
      KeepShrinks(s[1..], p, x);
    }
  }

  /** Two tests that agree on the elements of `s` keep the same elements. */
  lemma {:induction false} KeepCongruent<T(!new)>(s: seq<T>, p: T -> bool, q: T -> bool)
    requires forall x :: x in s ==> p(x) == q(x)
    ensures Keep(s, p) == Keep(s, q)
  {
    if |s| > 0 {
      assert s[0] in s;
      assert forall x :: x in s[1..] ==> x in s;
      KeepCongruent(s[1..], p, q);
    }
  }

  /** Filtering by a weaker test first and a stronger one second is filtering
      by the stronger test alone. */
  lemma {:induction false} KeepKeep<T(!new)>(s: seq<T>, weak: T -> bool, strong: T -> bool)
    requires forall x :: x in s && strong(x) ==> weak(x)
    ensures Keep(Keep(s, weak), strong) == Keep(s, strong)
  {
    if |s| > 0 {
      assert s[0] in s;
      assert forall x :: x in s[1..] ==> x in s;
      KeepKeep(s[1..], weak, strong);
    }
  }

  /** No value occurs twice. */
  predicate Distinct(s: seq<nat>) {
    forall i, j :: 0 <= i < j < |s| ==> s[i] != s[j]
  }

  /** `idx` lists every position 0 .. n-1 exactly once. */
  predicate IsPermutation(idx: seq<nat>, n: nat) {
    && |idx| == n
    && (forall i :: 0 <= i < |idx| ==> idx[i] < n)
    && Distinct(idx)
  }

  /** The elements of `s` at the positions `idx`, in the order of `idx`. */
  function Gather<T>(s: seq<T>, idx: seq<nat>): (r: seq<T>)
    requires forall i :: 0 <= i < |idx| ==> idx[i] < |s|
    ensures |r| == |idx|
    ensures forall i :: 0 <= i < |r| ==> r[i] == s[idx[i]]
  {
    seq(|idx|, i requires 0 <= i < |idx| => s[idx[i]])
  }

  /** Pigeonhole: distinct values below `b` number at most `b`. */
  lemma {:induction false} DistinctBounded(s: seq<nat>, b: nat)
    requires Distinct(s)
    requires forall i :: 0 <= i < |s| ==> s[i] < b
    ensures |s| <= b
    decreases |s|, 0
  {
    if |s| > 0 {
      var last := s[|s| - 1];
      var front := s[..|s| - 1];
      assert forall i :: 0 <= i < |front| ==> front[i] == s[i] && front[i] != last;
      DistinctAvoiding(front, b, last);
    }
  }

  /** Pigeonhole: distinct values below `b` that all miss some `v < b` number fewer than `b`. */
  lemma {:induction false} DistinctAvoiding(s: seq<nat>, b: nat, v: nat)
    requires Distinct(s)
    requires v < b
    requires forall i :: 0 <= i < |s| ==> s[i] < b && s[i] != v
    ensures |s| < b
    decreases |s|, 1
  {
    if v == b - 1 {
      DistinctBounded(s, b - 1);
    } else {
      // Move the value b - 1, if it occurs, onto the unused value v.
      var t := seq(|s|, i requires 0 <= i < |s| => if s[i] == b - 1 then v else s[i]);
      assert forall i, j :: 0 <= i < j < |t| ==> t[i] != t[j] by {
        forall i, j | 0 <= i < j < |t|
          ensures t[i] != t[j]
        {
          assert s[i] != s[j];
        }
      }
      DistinctBounded(t, b - 1);
    }
  }

  /** A permutation of 0 .. n-1 lists every value below n. */
  lemma PermutationCovers(idx: seq<nat>, n: nat, v: nat)
    requires IsPermutation(idx, n)
    requires v < n
    ensures v in idx
  {
    if v !in idx {
      DistinctAvoiding(idx, n, v);
      assert false;
    }
  }

  /** Removing the position that holds n - 1 from a permutation of 0 .. n-1
      leaves a permutation of 0 .. n-2. */
  lemma DropLargest(idx: seq<nat>, n: nat, k: nat)
    requires IsPermutation(idx, n)
    requires k < n && idx[k] == n - 1
    ensures IsPermutation(idx[..k] + idx[k + 1..], n - 1)
  {
    var rest := idx[..k] + idx[k + 1..];
    assert forall i :: 0 <= i < |rest| ==> rest[i] == if i < k then idx[i] else idx[i + 1];
    forall i, j | 0 <= i < j < |rest|
      ensures rest[i] != rest[j]
    {
      var i' := if i < k then i else i + 1;
      var j' := if j < k then j else j + 1;
      assert idx[i'] != idx[j'];
    }
    forall i | 0 <= i < |rest|
      ensures rest[i] < n - 1
    {
      var i' := if i < k then i else i + 1;
      assert idx[i'] != idx[k];
    }
  }

  /** Gathering by `idx` with position `k` dropped gathers everything but the
      `k`-th element. */
  lemma GatherDrop<T>(s: seq<T>, front: seq<T>, idx: seq<nat>, k: nat)
    requires forall i :: 0 <= i < |idx| ==> idx[i] < |s|
    requires k < |idx|
    requires front <= s
    requires forall i :: 0 <= i < |idx| && i != k ==> idx[i] < |front|
    ensures multiset(Gather(s, idx)) == multiset(Gather(front, idx[..k] + idx[k + 1..])) + multiset{s[idx[k]]}
  {
    var g := Gather(s, idx);
    var rest := idx[..k] + idx[k + 1..];
    assert forall i :: 0 <= i < |rest| ==> rest[i] == if i < k then idx[i] else idx[i + 1];
    assert Gather(front, rest) == g[..k] + g[k + 1..];
    assert g == g[..k] + [g[k]] + g[k + 1..];
  }

  /** Gathering by a permutation reorders without adding or losing anything. */
  lemma {:induction false} GatherPermutation<T>(s: seq<T>, idx: seq<nat>)
    requires IsPermutation(idx, |s|)
    ensures multiset(Gather(s, idx)) == multiset(s)
    decreases |s|
  {
    var n := |s|;
    if n > 0 {
      PermutationCovers(idx, n, n - 1);
      var k :| 0 <= k < |idx| && idx[k] == n - 1;
      DropLargest(idx, n, k);
      var front := s[..n - 1];
      GatherDrop(s, front, idx, k);
      GatherPermutation(front, idx[..k] + idx[k + 1..]);
      assert s == front + [s[n - 1]];
    }
  }
}

=== FILE: session.dfy ===
/** The quiz application's state machine: the start screen, the question view
    and the results view, driven by the user's actions and the one-second
    countdown tick. */
module Session {
  import opened Wrappers
  import opened Seqs
  import opened Questions
  import opened Selection
  import ReviewList

  /** The state of a run: its questions, the letter chosen at each position,
      the current position, whether results were forced, and the seconds left. */
  datatype Quiz = Quiz(
    questions: seq<Question>,
    answers: map<int, Choice>,
    index: int,
    showResults: bool,
    timer: int)

  /** The whole application: the auto-save toggle, the review list, the
      settings of the current run (absent on the start screen) and the run. */
  datatype App = App(
    autoSaveWrong: bool,
    review: seq<int>,
    settings: Option<Config>,
    quiz: Quiz)

  datatype View = Setup | Asking | Results

  /** Which screen is rendered. */
  function ViewOf(app: App): View {
    if app.settings.None? then Setup
    else if app.quiz.showResults || app.quiz.index >= |app.quiz.questions| then Results
    else Asking
  }

  /** The invariant every reachable state keeps: the position and the answered
      positions are within the run, the clock is not negative, and once a run
      configured on the start screen has run out of time its results show. */
  predicate Wf(app: App) {
    var quiz := app.quiz;
    && 0 <= quiz.index
    && (|quiz.questions| > 0 ==> quiz.index < |quiz.questions|)
    && (forall k :: k in quiz.answers ==> 0 <= k < |quiz.questions|)
    && 0 <= quiz.timer
    && (app.settings.Some? ==> ValidConfig(app.settings.value) && (quiz.timer == 0 ==> quiz.showResults))
  }

  /** The application as loaded, with the stored review list. */
  function Initial(stored: seq<int>): (app: App)
    ensures ViewOf(app) == Setup && Wf(app)
    ensures app.review == stored && !app.autoSaveWrong
    ensures app.quiz.questions == [] && app.quiz.answers == map[] && app.quiz.index == 0
    ensures app.quiz.timer == 0 && !app.quiz.showResults
  {
    App(false, stored, None, Quiz([], map[], 0, false, 0))
  }

  /** Starting a run: the pool is built from the parsed rows, the questions
      selected, and the run reset with the clock at `config.timer * 60`
      seconds. `perm` is the outcome of the random shuffle. */
  function Start(app: App, config: Config, rows: seq<Question>, perm: seq<nat>): (r: App)
    requires config.mode.Random? ==> IsPermutation(perm, |Pool(rows)|)
    ensures r.settings == Some(config)
    ensures r.review == app.review && r.autoSaveWrong == app.autoSaveWrong
    ensures r.quiz.answers == map[] && r.quiz.index == 0 && !r.quiz.showResults
    ensures r.quiz.timer == config.timer * 60
    ensures r.quiz.questions == Select(config, Pool(rows), app.review, perm)
    ensures multiset(r.quiz.questions) <= multiset(Pool(rows))
    ensures forall q :: q in r.quiz.questions ==> IsComplete(q)
    ensures ViewOf(r) == if r.quiz.questions == [] then Results else Asking
    ensures ValidConfig(config) ==> Wf(r)
  {
    var selected := Select(config, Pool(rows), app.review, perm);
    assert forall q :: q in selected ==> q in multiset(Pool(rows));
    app.(settings := Some(config), quiz := Quiz(selected, map[], 0, false, config.timer * 60))
  }

  /** Choosing `letter` for the current question: it is recorded at the
      current position, and a wrong answer is auto-saved when enabled. */
  function Answer(app: App, letter: Choice): (r: App)
    requires ViewOf(app) == Asking && 0 <= app.quiz.index
    ensures r.quiz.answers.Keys == app.quiz.answers.Keys + {app.quiz.index}
    ensures r.quiz.answers[app.quiz.index] == letter
    ensures forall k :: k in app.quiz.answers && k != app.quiz.index ==> r.quiz.answers[k] == app.quiz.answers[k]
    ensures
      var q := app.quiz.questions[app.quiz.index];
      if app.autoSaveWrong && !IsRight(q, letter) then r.review == app.review + [q.id] else r.review == app.review
    ensures r.quiz.(answers := app.quiz.answers) == app.quiz
    ensures r.settings == app.settings && r.autoSaveWrong == app.autoSaveWrong
    ensures ViewOf(r) == Asking
    ensures Wf(app) ==> Wf(r)
  {
    var quiz := app.quiz;
    var q := quiz.questions[quiz.index];
    var review := ReviewList.AutoSave(app.review, app.autoSaveWrong, q, letter);
    assert review == if app.autoSaveWrong && !IsRight(q, letter) then app.review + [q.id] else app.review;
    app.(review := review, quiz := quiz.(answers := quiz.answers[quiz.index := letter]))
  }

  /** Answering the same letter twice changes nothing the second time unless
      auto-save is on and the letter is wrong. */
  lemma AnswerTwice(app: App, letter: Choice)
    requires ViewOf(app) == Asking && 0 <= app.quiz.index
    ensures Answer(Answer(app, letter), letter).quiz == Answer(app, letter).quiz
    ensures !app.autoSaveWrong || IsRight(app.quiz.questions[app.quiz.index], letter) ==>
      Answer(Answer(app, letter), letter) == Answer(app, letter)
  {
  }

  /** One second of the countdown. The interval only runs while the clock is
      above zero; a tick at one second or less stops at zero and shows the
      results. */
  function Tick(app: App): (r: App)
    ensures app.quiz.timer <= 0 ==> r == app
    ensures 0 < app.quiz.timer ==> 0 <= r.quiz.timer < app.quiz.timer
    ensures 1 < app.quiz.timer ==> r.quiz.timer == app.quiz.timer - 1 && r.quiz.showResults == app.quiz.showResults
    ensures 0 < app.quiz.timer <= 1 ==> r.quiz.timer == 0 && r.quiz.showResults
    ensures r.quiz.(timer := app.quiz.timer, showResults := app.quiz.showResults) == app.quiz
    ensures r.review == app.review && r.settings == app.settings && r.autoSaveWrong == app.autoSaveWrong
    ensures Wf(app) ==> Wf(r)
  {
    var t := app.quiz.timer;
    if t <= 0 then app
    else if t <= 1 then app.(quiz := app.quiz.(timer := 0, showResults := true))
    else app.(quiz := app.quiz.(timer := t - 1))
  }

  /** `k` seconds of the countdown. */
  function Ticks(app: App, k: nat): App
    decreases k
  {
    if k == 0 then app else Ticks(Tick(app), k - 1)
  }

  /** With `t` seconds on the clock, each of the first `t - 1` ticks takes one
      second off and the `t`-th forces the results; any further tick changes
      nothing. */
  lemma {:induction false} Countdown(app: App, k: nat)
    requires 0 < app.quiz.timer
    ensures k < app.quiz.timer ==>
      Ticks(app, k).quiz == app.quiz.(timer := app.quiz.timer - k)
    ensures app.quiz.timer <= k ==>
      Ticks(app, k).quiz == app.quiz.(timer := 0, showResults := true)
    ensures Ticks(app, k).review == app.review
    ensures Ticks(app, k).settings == app.settings && Ticks(app, k).autoSaveWrong == app.autoSaveWrong
    decreases k
  {
    if k > 0 {
      var next := Tick(app);
      if next.quiz.timer > 0 {
        Countdown(next, k - 1);
      } else {
        Expired(next, k - 1);
      }
    }
  }

  /** Once the clock is at zero, ticking is a no-op. */
  lemma {:induction false} Expired(app: App, k: nat)
    requires app.quiz.timer == 0
    ensures Ticks(app, k) == app
    decreases k
  {
    if k > 0 {
      Expired(Tick(app), k - 1);
    }
  }

  /** The "Indietro" button: disabled on the first question. */
  function Back(app: App): (r: App)
    requires ViewOf(app) == Asking
    ensures app.quiz.index == 0 ==> r == app
    ensures app.quiz.index != 0 ==> r == app.(quiz := app.quiz.(index := app.quiz.index - 1))
    ensures ViewOf(r) == Asking
    ensures Wf(app) ==> Wf(r)
  {
    if app.quiz.index == 0 then app
    else app.(quiz := app.quiz.(index := app.quiz.index - 1))
  }

  /** The right-hand button: "Avanti" before the last question, "Concludi" on it. */
  function Forward(app: App): (r: App)
    requires ViewOf(app) == Asking
    ensures ViewOf(r) == Results <==> app.quiz.index == |app.quiz.questions| - 1
    ensures ViewOf(r) == Asking ==> r.quiz.index == app.quiz.index + 1
    ensures r.quiz.(index := app.quiz.index, showResults := app.quiz.showResults) == app.quiz
    ensures r.review == app.review && r.settings == app.settings && r.autoSaveWrong == app.autoSaveWrong
    ensures Wf(app) ==> Wf(r)
  {
    if app.quiz.index < |app.quiz.questions| - 1 then
      app.(quiz := app.quiz.(index := app.quiz.index + 1))
    else
      app.(quiz := app.quiz.(showResults := true))
  }

  /** "Torna alla schermata iniziale": only the settings are cleared; the
      review list and even the running clock survive. */
  function Restart(app: App): (r: App)
    ensures ViewOf(r) == Setup
    ensures r.review == app.review && r.quiz == app.quiz && r.autoSaveWrong == app.autoSaveWrong
    ensures Wf(app) ==> Wf(r)
  {
    app.(settings := None)
  }

  /** A user action or a clock tick. `Begin` carries the submitted settings,
      the parsed rows and the outcome of the shuffle. */
  datatype Event =
    | SetAutoSave(on: bool)
    | Begin(config: Config, rows: seq<Question>, perm: seq<nat>)
    | Pick(letter: Choice)
    | Prev
    | Next
    | Second
    | Flag(id: int)
    | Home

  /** Whether the current screen offers the action. */
  predicate Enabled(app: App, e: Event) {
    match e
    case SetAutoSave(_) => ViewOf(app) == Setup
    case Begin(config, rows, perm) =>
      && ViewOf(app) == Setup
      && ValidConfig(config)
      && (config.mode.Random? ==> IsPermutation(perm, |Pool(rows)|))
    case Pick(_) => ViewOf(app) == Asking
    case Prev => ViewOf(app) == Asking
    case Next => ViewOf(app) == Asking
    case Second => true
    case Flag(_) => ViewOf(app) == Results
    case Home => ViewOf(app) == Results
  }

  /** The effect of one offered event. */
  function Step(app: App, e: Event): (r: App)
    requires Wf(app) && Enabled(app, e)
    ensures Wf(r)
    ensures r.review != app.review ==> e.Pick? || e.Flag?
    ensures e.Flag? ==>
              ReviewList.Members(r.review) ==
                if e.id in app.review then ReviewList.Members(app.review) - {e.id}
                else ReviewList.Members(app.review) + {e.id}
  {
    match e
    case SetAutoSave(on) => app.(autoSaveWrong := on)
    case Begin(config, rows, perm) => Start(app, config, rows, perm)
    case Pick(letter) => Answer(app, letter)
    case Prev => Back(app)
    case Next => Forward(app)
    case Second => Tick(app)
    case Flag(id) => app.(review := ReviewList.Toggle(app.review, id))
    case Home => Restart(app)
  }

  /** A sequence of events; an event the current screen does not offer has no effect. */
  function Run(app: App, events: seq<Event>): (r: App)
    requires Wf(app)
    ensures Wf(r)
    decreases |events|
  {
    if events == [] then app
    else if Enabled(app, events[0]) then Run(Step(app, events[0]), events[1..])
    else Run(app, events[1..])
  }

  /** Every state reachable from the loaded application keeps the invariant,
      so the question view always has a question to show. */
  lemma Reachable(stored: seq<int>, events: seq<Event>)
    ensures Wf(Run(Initial(stored), events))
    ensures ViewOf(Run(Initial(stored), events)) == Asking ==>
      0 <= Run(Initial(stored), events).quiz.index < |Run(Initial(stored), events).quiz.questions|
  {
  }

  /** A run with nothing selected goes straight to the results. */
  lemma EmptyRunFinishes(app: App, config: Config, rows: seq<Question>, perm: seq<nat>)
    requires config.mode.Random? ==> IsPermutation(perm, |Pool(rows)|)
    requires Select(config, Pool(rows), app.review, perm) == []
    ensures ViewOf(Start(app, config, rows, perm)) == Results
  {
  }

  /** A ten-minute run, the shortest the start screen offers: after 599 ticks
      the clock shows one second and the results are not forced, the 600th
      tick forces them, and a further tick changes nothing. */
  lemma TenMinuteRun(app: App, config: Config, rows: seq<Question>, perm: seq<nat>)
    requires config.mode.Random? ==> IsPermutation(perm, |Pool(rows)|)
    requires ValidConfig(config) && config.timer == 10
    ensures Ticks(Start(app, config, rows, perm), 599).quiz.timer == 1
    ensures !Ticks(Start(app, config, rows, perm), 599).quiz.showResults
    ensures Ticks(Start(app, config, rows, perm), 600).quiz.timer == 0
    ensures Ticks(Start(app, config, rows, perm), 600).quiz.showResults
    ensures Tick(Ticks(Start(app, config, rows, perm), 600)) == Ticks(Start(app, config, rows, perm), 600)
  {
    var s := Start(app, config, rows, perm);
    Countdown(s, 599);
    Countdown(s, 600);
  }
}

=== FILE: wrappers.dfy ===
/** An optional value: the quiz settings, absent while the start screen is
    shown, and a row's `Corretta` text, absent when the row has no such field. */
module Wrappers {

  datatype Option<+T> = None | Some(value: T)
}
